=== FILE: README.md ===
# SQL lineage analyzer — a Dafny model

The analyzer reads a multi-statement SQL script and reports its tables in
three roles. Sources are read but never created by the script. Targets are
the created names the script's CREATE statements give (see below), except
in the fallback, where they are the parser's own targets. Intermediates are
created by the script and also read by it. The web entry point also builds a
graph for display: one node per table, tagged with a group, and links that
fan out from sources through intermediates to targets.

The model covers:

- **Classifier** (`Classifier`). The script is cut at every `;`. Each piece
  is stripped and upper-cased, then bucketed by its leading CREATE, INSERT or
  SELECT. Every statement that starts with CREATE, contains the literal text
  `CREATE TABLE` or `CREATE VIEW`, and has at least three whitespace tokens
  gives one created name: `<default>.` followed by its third whitespace
  token, cut before the first `(`.
- **Resolver** (`Resolver`). The parser's source strings are split by
  whether they are created names. The `"Table: "` label is removed, and the
  fallback to the parser's raw lists fires when the refined sources and
  targets are both empty.
- **Graph** (`Graph`, `LinkLoops`, `WebApp`). The node list with groups
  1/2/3, and the three nested link loops, both as a function and as the
  loops themselves.
- **Command-line copy** (`LineageScript`). It is the same resolver, returning
  the triple only.
- **Renderer** (`Renderer`). The raw parser lists and the full cross product
  of their edges.

The Python string operations it relies on are modelled in `Text`:

- `split(';')`, which keeps empty pieces;
- `split()` with no argument, giving maximal non-whitespace runs;
- `strip()`, using Python's `str.isspace` set;
- ASCII `upper()`;
- `in` as a substring test;
- `replace(label, "")`.

Python sets become duplicate-free sequences in `Collections`.

The SQL parser is outside the model. Its results enter every entry point as
two parameters:

- `parserSources`: the `str()` of each table in `runner.source_tables`;
- `parserTargets`: the same for `runner.target_tables`.

## Model

| member | source | states |
|---|---|---|
| Text.Strip | app.py:40 | the stripped text has no whitespace at either end, and the input is that text with only whitespace before and after it |
| Text.Upper | app.py:40 | upper-casing keeps the length, turns each lower-case ASCII letter into its capital (32 code points lower), keeps every other character, and leaves no lower-case ASCII letter |
| Text.SplitOn | app.py:39 | splitting on `;` gives one piece more than there are separators, no piece holds the separator, and joining the pieces with it gives back the script |
| Text.SplitJoin | app.py:39 | splitting a join of separator-free pieces gives back exactly those pieces |
| Text.SplitOnFirst | app.py:57 | the first piece of a split is the text before the first separator, or the whole text when there is none |
| Text.Tokens | app.py:53 | `split()` gives non-empty whitespace-free tokens drawn from the text, which laid end to end are the text with its whitespace removed |
| Text.TokensAtSpace | app.py:53 | any whitespace character, in any run of whitespace, is a token boundary: the tokens of `a`, one whitespace character and `b` are the tokens of `a` followed by those of `b` |
| Text.TokensAllSpace | app.py:53 | whitespace-only text has no tokens |
| Text.TokensWord | app.py:53 | a non-empty whitespace-free word is its own only token |
| Text.TokensOfSpaced | app.py:53 | `split()` of non-empty whitespace-free words joined by single spaces gives back the words |
| Text.TokensCons | app.py:53 | a whitespace-free word followed by a space is the first token, and the tokens of the rest follow it |
| Text.TokenLenUnique | app.py:53 | the length of the leading run of non-whitespace (empty when the text starts with whitespace) is the unique one that ends at whitespace or at the end of the text |
| Text.Contains | app.py:51 | the substring test holds exactly when the pattern occurs at some position |
| Text.RemoveAll | app.py:80-82 | `replace(pat, "")` is `\|pat\|` characters shorter per occurrence that `str.count` counts, and it is unchanged exactly when the pattern does not occur |
| Text.RemoveAllPrefix | app.py:80-82 | a leading occurrence is removed and the rest is processed as if it stood alone |
| Text.RemoveAllFirst | app.py:80-82 | the text before the first occurrence is kept as it is, the first occurrence is removed, and the scan resumes after it; with the no-op case this fixes every result |
| Collections.Dedup | app.py:49-58 | a set built by repeated `add` holds each member of the added sequence exactly once and nothing else |
| Collections.Filter | app.py:62-65 | a `for` loop with a conditional `add` keeps exactly the members that pass the test |
| Classifier.Normalize | app.py:40 | a normalized statement is a run of the piece with only whitespace before and after it, upper-cased character by character, and has no whitespace at either end |
| Classifier.NormalizeUnique | app.py:40 | any string that is an upper-cased, whitespace-padded run of the piece with no whitespace at its ends is the normalized statement, so the contract of `Normalize` determines it |
| Classifier.Statements | app.py:39-40 | statement `i` is the `i`-th piece of the script cut at `;` (pieces free of `;` that join back to the script), normalized; there is one statement more than there are semicolons |
| Classifier.StatementsUnique | app.py:39-40 | the pieces are unique: any separator-free list joining to the script, normalized piece by piece, is the statement list |
| Classifier.VerbOf | app.py:41-46 | a statement is bucketed as CREATE, INSERT or SELECT exactly when it starts with that keyword, and is dropped exactly when it starts with none |
| Classifier.KeywordsExclusive | app.py:41-46 | no statement starts with two of the three keywords, so the order of the tests never matters |
| Classifier.Classify | app.py:39-46 | each bucket holds exactly the statements that start with its keyword, and the buckets together are no more than the statements |
| Classifier.NonCreateStaysOut | app.py:41-42 | a statement that does not start with CREATE never reaches the CREATE bucket, whatever else it contains |
| Classifier.AtMostOneBucket | app.py:41-46 | no statement lands in two buckets |
| Classifier.CutAtParen | app.py:55-57 | the cut name is the part of the token before its first `(` (or all of it), with no `(` and no whitespace |
| Classifier.CutAtParenWord | app.py:57 | a token without `(` is kept whole |
| Classifier.CreatedNameSpec | app.py:51-58 | a statement yields a name exactly when it contains `CREATE TABLE` or `CREATE VIEW` and has at least three tokens; the name is `<default>.` plus the third token cut at `(` |
| Classifier.CreatedNameOfThird | app.py:53-58 | whatever the third token of a CREATE TABLE / CREATE VIEW statement is, a token without `(` becomes the name `<default>.` followed by it |
| Classifier.IfNotExistsYieldsIf | app.py:51-58 | `CREATE TABLE IF NOT EXISTS …` yields the name `<default>.IF`, not the table's name |
| Classifier.CreatedNames | app.py:50-58 | a name is added exactly when some CREATE statement yields it |
| Classifier.CreateTables | app.py:49-58 | `create_tables` holds each name once, exactly the names that the script's CREATE statements yield, each of the created-name shape |
| Classifier.NoCreateKeywordNoTables | app.py:49-58 | a script with no CREATE TABLE or CREATE VIEW statement creates no table |
| Resolver.StripLabel | app.py:80-82 | removing `"Table: "` shortens a name by seven characters per counted occurrence of the label, and leaves it unchanged exactly when the label does not occur in it |
| Resolver.StripLabelPrefix | app.py:80-82 | a leading label is removed before the rest is stripped, so `"Table: " + x` strips to `x` when `x` holds no further label |
| Resolver.StripLabelFirst | app.py:80-82 | a label after a label-free stretch is cut out and the stretch is kept, so `"aTable: b"` strips to `"ab"` |
| Resolver.StripAll | app.py:80-88 | each list comprehension keeps the length and strips the label from every element in place |
| Resolver.CreatedNameHasNoLabel | app.py:81 | a created name never contains the label, so stripping leaves it unchanged |
| Resolver.Partition | app.py:60-77 | a parser source goes to `sources_set` exactly when it is not a created name and to `intermediate_tables` exactly when it is; `targets_set` is exactly the created names |
| Resolver.PartitionIsExact | sql_lineage_with_ai.py:73-90 | `sources_set` and `intermediate_tables` are disjoint, together are all parser sources, and every intermediate is in `targets_set` |
| Resolver.CreateTablesAreCreatedSet | app.py:49-58 | `create_tables` has no repeats and only created-name-shaped members |
| Resolver.FallbackCondition | app.py:84-85 | the refined sources and targets are both empty exactly when the script creates no table and the parser reports no source |
| Resolver.FallbackResult | app.py:84-88 | when the fallback fires, the result is the label-stripped parser targets with no sources and no intermediates |
| Resolver.RefinedResult | app.py:60-82 | outside the fallback, targets are exactly the created names, intermediates are exactly the parser sources that are created names (each once), and sources are the label-stripped parser sources that are not |
| Resolver.RefinedTargets | app.py:67-70 | the refined targets are the created names, unchanged by label stripping |
| Resolver.RefinedIntermediates | app.py:72-82 | the refined intermediates are exactly the parser sources that are created names, each once |
| Resolver.RefinedSources | app.py:60-65 | the refined sources are exactly the label-stripped parser sources that are not created names |
| Resolver.IntermediatesAreTargets | app.py:67-88 | on both paths every intermediate is also a target |
| Resolver.NoCreateDropsParserTargets | app.py:60-88 | with no created table and some parser source, no target and no intermediate is reported, whatever targets the parser found |
| Resolver.LowerCaseSourceNeverIntermediate | app.py:40-77 | a parser source `<default>.x` whose name part has a lower-case letter is never an intermediate, and is reported as a source |
| Graph.Cross | app.py:103-105 | the nested loop gives \|xs\|·\|ys\| links |
| Graph.CrossMembers | app.py:103-105 | every link of the nested loop joins a member of xs to a member of ys |
| Graph.CrossIndex | app.py:103-105 | the link of `xs[i]` and `ys[j]` sits at position `i·\|ys\| + j` |
| Graph.CrossComplete | app.py:113-116 | every pair of a member of xs and a member of ys is linked |
| Graph.CrossSnoc | app.py:103-105 | the outer loop's next pass appends the fan of its element |
| Graph.LinksShape | app.py:99-116 | with intermediates the links are all source→intermediate pairs and then all intermediate→target pairs; without, they are all source→target pairs, with the matching counts |
| LinkLoops.AppendPairs | app.py:103-105 | one pair of nested loops appends the cross product to the links so far |
| LinkLoops.AppendFan | app.py:104-105 | the inner loop appends one link from its element to each member of the inner list, in order |
| LinkLoops.BuildLinks | app.py:99-116 | the three loops as written build exactly the links of `LinksShape` |
| Graph.Nodes | app.py:90-120 | each table of the three lists is a node exactly once, and no other node exists; group 1 exactly for sources, group 2 exactly for targets that are not sources, group 3 otherwise |
| Graph.NoGroupThree | app.py:119-120 | when every intermediate is a target, no node is in group 3 |
| LineageScript.TargetsComeFromCreateStatements | sql_lineage_with_ai.py:61-94 | outside the fallback every target is the created name of some CREATE statement of the script, and every such name is a target |
| LineageScript.SourcesSplitOnCreatedTables | sql_lineage_with_ai.py:73-95 | outside the fallback a parser source is an intermediate exactly when it is a created name, and otherwise reaches the sources label-stripped |
| LineageScript.ScriptFallback | sql_lineage_with_ai.py:97-103 | when the fallback fires the triple is no sources, the stripped parser targets, and no intermediates |
| WebApp.AgreesWithScript | sql_lineage_with_ai.py:43-103 | the web entry point's sources, targets and intermediates are the command-line triple |
| WebApp.NodesOfResult | app.py:90-120 | every reported table is one node, group 1 exactly for sources and group 2 exactly for other targets, and group 3 never occurs |
| WebApp.LinksOfResult | app.py:99-116 | the reported links fan source→intermediate→target, or source→target without intermediates, with the product counts |
| Renderer.GetLineageDetails | lineage_renderer.py:4-13 | the parser lists come back unchanged; there is one edge per source–target pair, none exactly when either list is empty, each joining a listed source to a listed target |
| Renderer.EdgeAt | lineage_renderer.py:11 | the edge of `sources[i]` and `targets[j]` is at position `i·\|targets\| + j` |
| Renderer.EveryPairHasEdge | lineage_renderer.py:11 | every source–target pair has its edge |
| Renderer.PrintLineageDetails | lineage_renderer.py:15-23 | printing aside, the function returns the triple that `get_lineage_details` computes |

## Left out

- The SQL parser (`LineageRunner`) is not modelled. Its source and target tables are parameters, as their `str()` forms in the parser's order.
- A parse error raised by the parser is not modelled. `analyze_lineage` builds the runner and reads its `source_tables` and `target_tables` outside any `try` (app.py:32-88, sql_lineage_with_ai.py:45-101), so such an error propagates to the caller.
- Python's set iteration order is unspecified, so the model enumerates every set in first-insertion order. `Resolver.RefinedTargets` and `Resolver.RefinedResult` state the targets as equal to `create_tables`; that equality holds for the chosen order, and what it means for the code is the same members, no repeats and the same count. Every other list property is stated by membership and length.
- The `insert_statements` and `select_statements` buckets are modelled (`Classifier.Classify`). Nothing downstream reads them.
- `Text.Upper` is ASCII only. Python's `str.upper` also maps non-ASCII letters, including ones that grow in length (`ß` → `SS`); only ASCII keywords and names are modelled.
- The `print` in the fallback branch and the printing in `print_lineage_details` are left out, as output only.
- `main`, `read_sql_file`, report writing and `.env` / API-key loading in sql_lineage_with_ai.py are left out, as I/O and configuration.
- The `.env` / API-key loading and Gemini configuration at the top of app.py (app.py:7-26) are left out, as configuration.
- The Flask routes of app.py are left out, as I/O around `analyze_lineage`: `/` renders the index page; `/analyze` reads the form field, replies 400 to an empty script, and returns the lineage with an AI explanation from `generate_explanation` as JSON; `/sql_examples/sql_lineage_test.sql` serves the example file with `send_file`.
- gemini_ai.py and every call into the Gemini API are left out, as a foreign network service.
- WebApp.AnalyzeLineage: carries no ensures of its own. It models app.py:30-128, and its behaviour is stated by `AgreesWithScript`, `NodesOfResult` and `LinksOfResult`.
- LineageScript.AnalyzeLineage: carries no ensures of its own. It models sql_lineage_with_ai.py:43-103, and its behaviour is stated by `TargetsComeFromCreateStatements`, `SourcesSplitOnCreatedTables` and `ScriptFallback`.
- Resolver.Refine: carries no ensures of its own. It is the non-fallback branch (app.py:60-82), stated by `RefinedResult`, `RefinedTargets`, `RefinedIntermediates` and `RefinedSources`.
- Resolver.Decide: carries no ensures of its own. Its behaviour is stated by `FallbackResult` and `RefinedResult`, one lemma per branch, for any `create_tables` of the shape the classifier guarantees (`CreateTablesAreCreatedSet`).
- Resolver.Resolve: carries no ensures of its own. It is `Decide` applied to `Classifier.CreateTables`, and the `LineageScript` lemmas state its behaviour in terms of the script.
- Classifier.CreatedName: carries no ensures of its own. Its behaviour is stated by `CreatedNameSpec`.
- Graph.Group: carries no ensures of its own. It is the group expression `1 if table in sources else (2 if table in targets else 3)` of app.py:119, and `Graph.Nodes` states its result.
- Classifier.HasCreateKeyword: carries no ensures of its own. It is the test `'CREATE TABLE' in stmt or 'CREATE VIEW' in stmt` of app.py:51, a substring test through `Text.Contains`.
- Text.StartsWith: carries no ensures of its own. It is `str.startswith` (app.py:41-45): the prefix is no longer than the text and equals its first characters.
- Text.IsSpace: carries no ensures of its own. It is Python's `str.isspace` for one character, the set that `strip()` (app.py:40) and `split()` (app.py:53) use: tab through carriage return, U+001C-U+001F, space, U+0085, U+00A0, U+1680, U+2000-U+200A, U+2028, U+2029, U+202F, U+205F and U+3000.
- Graph.Links: carries no ensures of its own. Its behaviour is stated by `LinksShape`, `CrossMembers`, `CrossIndex` and `CrossComplete`.

## Behaviour of the code worth knowing

- **Created names are upper-cased; parser names are compared as given.**
  - A lower-case script yields `<default>.STAGING` for `CREATE TABLE staging …`.
  - A parser source spelled `<default>.staging` therefore never matches. It is never an intermediate and is reported as a source (`Resolver.LowerCaseSourceNeverIntermediate`).
- **The `<default>.` prefix is always added**, even when the third token is already schema-qualified.
- **The name is always the third token.** For `CREATE TABLE IF NOT EXISTS t` it is `<default>.IF` (`Classifier.IfNotExistsYieldsIf`).
- **The keyword test is a literal substring test** (`Classifier.CreatedNameSpec`, `Classifier.NoCreateKeywordNoTables`).
  - `CREATE OR REPLACE VIEW v …`, `CREATE TEMPORARY TABLE t …`, `CREATE MATERIALIZED VIEW m …` and `CREATE  TABLE t` (two spaces), or a newline between the two words, give no name, since none contains `CREATE TABLE` or `CREATE VIEW` as written.
  - A bare `CREATE TABLE` has only two tokens and gives no name either.
  - A CREATE statement that merely mentions the text, such as `CREATE INDEX IX ON T(A) COMMENT 'CREATE TABLE'`, gives `<default>.IX`.
- **When the fallback fires.** It fires only when the script creates no table and the parser reports no source (`Resolver.FallbackCondition`). So its source list is always empty.

=== FILE: classifier.dfy ===
/**
  The statement classifier of `analyze_lineage` (app.py:34-58, repeated at
  sql_lineage_with_ai.py:47-71): the script is cut at every `;`, each piece
  is trimmed and upper-cased, bucketed by its leading verb, and every CREATE
  TABLE / CREATE VIEW statement yields one created-table name qualified with
  the placeholder schema `<default>`.
 */
module Classifier {
  import opened Text
  import opened Collections

  datatype Verb = Create | Insert | Select | Unclassified

  /** The three lists the loop fills; unclassified statements are dropped. */
  datatype Buckets = Buckets(creates: seq<string>, inserts: seq<string>, selects: seq<string>)

  const DefaultSchema: string := "<default>."

  /** `st` is `piece` with whitespace only before it (the first `k`
      characters) and after it, every letter upper-cased. */
  predicate UpperOfPadded(piece: string, st: string, k: int)
  {
    && 0 <= k <= |piece| - |st|
    && AllSpace(piece[..k]) && AllSpace(piece[k + |st|..])
    && forall i :: 0 <= i < |st| ==> st[i] == UpperChar(piece[k + i])
  }

  /** `stmt.strip().upper()`: the piece with its surrounding whitespace cut
      off and upper-cased, so that no whitespace is left at either end and
      no lower-case ASCII letter anywhere. */
  function Normalize(piece: string): (st: string)
    ensures |st| <= |piece|
    ensures NoLower(st)
    ensures st == [] || (!IsSpace(st[0]) && !IsSpace(st[|st| - 1]))
    ensures exists k :: UpperOfPadded(piece, st, k)
    ensures forall c :: c in st && !('A' <= c <= 'Z') ==> c in piece
  {
    var t := Strip(piece);
    var st := Upper(t);
    var k :| PaddedBy(piece, t, k);
    NormalizeShape(piece, t, st, k);
    st
  }

  lemma NormalizeShape(piece: string, t: string, st: string, k: int)
    requires PaddedBy(piece, t, k)
    requires st == Upper(t)
    ensures UpperOfPadded(piece, st, k)
    ensures forall c :: c in st && !('A' <= c <= 'Z') ==> c in piece
  {
    forall i | 0 <= i < |st|
      ensures st[i] == UpperChar(piece[k + i])
    {
      assert t[i] == piece[k..k + |t|][i];
    }
    forall c | c in st && !('A' <= c <= 'Z')
      ensures c in piece
    {
      var i :| 0 <= i < |st| && st[i] == c;
      assert piece[k + i] in piece;
    }
  }

  /** The two ends of a normal form: whatever `UpperOfPadded` allows, a
      result without whitespace at its ends is determined by the piece.
      So `Normalize`'s contract pins its result down completely. */
  lemma NormalizeUnique(piece: string, st: string, k: int)
    requires UpperOfPadded(piece, st, k)
    requires st == [] || (!IsSpace(st[0]) && !IsSpace(st[|st| - 1]))
    ensures st == Normalize(piece)
  {
    var n := Normalize(piece);
    var j :| UpperOfPadded(piece, n, j);
    PaddedUpperUnique(piece, st, k, n, j);
  }

  lemma PaddedUpperUnique(piece: string, a: string, ka: int, b: string, kb: int)
    requires UpperOfPadded(piece, a, ka) && UpperOfPadded(piece, b, kb)
    requires a == [] || (!IsSpace(a[0]) && !IsSpace(a[|a| - 1]))
    requires b == [] || (!IsSpace(b[0]) && !IsSpace(b[|b| - 1]))
    ensures a == b
  {
    if a != [] && b != [] {
      PaddedUpperStart(piece, a, ka, b, kb);
      PaddedUpperStart(piece, b, kb, a, ka);
      PaddedUpperEnd(piece, a, ka, b, kb);
      PaddedUpperEnd(piece, b, kb, a, ka);
    } else if a == [] {
      PaddedUpperEmpty(piece, a, ka, b, kb);
    } else {
      PaddedUpperEmpty(piece, b, kb, a, ka);
    }
  }

  /** A normal form that starts with non-whitespace starts at or before
      any other: everything before another's start is whitespace. */
  lemma PaddedUpperStart(piece: string, a: string, ka: int, b: string, kb: int)
    requires UpperOfPadded(piece, a, ka) && UpperOfPadded(piece, b, kb)
    requires a != [] && b != [] && !IsSpace(b[0])
    ensures ka <= kb
  {
    assert !IsSpace(piece[kb]) by {
      assert b[0] == UpperChar(piece[kb + 0]);
    }
    SpaceBefore(piece, ka, kb);
  }

  lemma PaddedUpperEnd(piece: string, a: string, ka: int, b: string, kb: int)
    requires UpperOfPadded(piece, a, ka) && UpperOfPadded(piece, b, kb)
    requires a != [] && b != [] && !IsSpace(b[|b| - 1])
    ensures kb + |b| <= ka + |a|
  {
    var f := kb + |b| - 1;
    assert !IsSpace(piece[f]) by {
      assert b[|b| - 1] == UpperChar(piece[kb + (|b| - 1)]);
    }
    SpaceAfter(piece, ka + |a|, f);
  }

  lemma PaddedUpperEmpty(piece: string, a: string, ka: int, b: string, kb: int)
    requires UpperOfPadded(piece, a, ka) && UpperOfPadded(piece, b, kb)
    requires a == [] && (b == [] || !IsSpace(b[0]))
    ensures b == []
  {
    if b != [] {
      assert !IsSpace(piece[kb]) by {
        assert b[0] == UpperChar(piece[kb + 0]);
      }
      SpaceBefore(piece, ka, kb);
      SpaceAfter(piece, ka, kb);
    }
  }

  /** `sql` is the `pieces` joined with `;`, none of them holding a `;`. */
  predicate SplitAtSemicolons(sql: string, pieces: seq<string>)
  {
    && |pieces| > 0
    && (forall p :: p in pieces ==> ';' !in p)
    && Join(pieces, ';') == sql
  }

  /** The normalized statements of a script: cutting the script at every
      `;` gives pieces that hold no `;` and join back to the script, and
      statement `i` is piece `i` normalized (empty pieces included). There
      is one more statement than there are semicolons. */
  function Statements(sql: string): (stmts: seq<string>)
    ensures |stmts| == Count(sql, ';') + 1
    ensures forall st :: st in stmts ==> ';' !in st && NoLower(st)
    ensures exists pieces :: SplitAtSemicolons(sql, pieces) && |pieces| == |stmts|
              && forall i :: 0 <= i < |stmts| ==> stmts[i] == Normalize(pieces[i])
  {
    var pieces := SplitOn(sql, ';');
    var stmts := seq(|pieces|, i requires 0 <= i < |pieces| => Normalize(pieces[i]));
    assert forall i :: 0 <= i < |pieces| ==> pieces[i] in pieces;
    assert SplitAtSemicolons(sql, pieces);
    stmts
  }

  /** The pieces a script cuts into are unique, so any statement list built
      from pieces that hold no `;` and join back to the script is the
      statement list. */
  lemma StatementsUnique(sql: string, pieces: seq<string>, stmts: seq<string>)
    ensures && SplitAtSemicolons(sql, pieces) && |pieces| == |stmts|
            && (forall i :: 0 <= i < |stmts| ==> stmts[i] == Normalize(pieces[i]))
            ==> stmts == Statements(sql)
  {
    if SplitAtSemicolons(sql, pieces) {
      SplitJoin(pieces, ';');
    }
  }

  /** The verb tests run CREATE, then INSERT, then SELECT; because the three
      keywords differ in their first letter, at most one of them can open a
      statement, so the first-match order never decides anything. */
  function VerbOf(st: string): (v: Verb)
    ensures v == Create <==> StartsWith(st, "CREATE")
    ensures v == Insert <==> StartsWith(st, "INSERT")
    ensures v == Select <==> StartsWith(st, "SELECT")
    ensures v == Unclassified <==>
              !StartsWith(st, "CREATE") && !StartsWith(st, "INSERT") && !StartsWith(st, "SELECT")
  {
    KeywordsExclusive(st);
    if StartsWith(st, "CREATE") then Create
    else if StartsWith(st, "INSERT") then Insert
    else if StartsWith(st, "SELECT") then Select
    else Unclassified
  }

  lemma KeywordsExclusive(st: string)
    ensures !(StartsWith(st, "CREATE") && StartsWith(st, "INSERT"))
    ensures !(StartsWith(st, "CREATE") && StartsWith(st, "SELECT"))
    ensures !(StartsWith(st, "INSERT") && StartsWith(st, "SELECT"))
  {
    if StartsWith(st, "CREATE") {
      assert st[0] == 'C';
    }
    if StartsWith(st, "INSERT") {
      assert st[0] == 'I';
    }
  }

  /** The classification loop: a statement lands in the bucket of its verb
      and in no other, and each statement is appended at most once, so the
      buckets together are never longer than the input. */
  function Classify(stmts: seq<string>): (b: Buckets)
    ensures forall st :: st in b.creates ==> st in stmts && VerbOf(st) == Create
    ensures forall st :: st in b.inserts ==> st in stmts && VerbOf(st) == Insert
    ensures forall st :: st in b.selects ==> st in stmts && VerbOf(st) == Select
    ensures forall st :: st in stmts && VerbOf(st) == Create ==> st in b.creates
    ensures forall st :: st in stmts && VerbOf(st) == Insert ==> st in b.inserts
    ensures forall st :: st in stmts && VerbOf(st) == Select ==> st in b.selects
    ensures |b.creates| + |b.inserts| + |b.selects| <= |stmts|
    decreases |stmts|
  {
    if |stmts| == 0 then Buckets([], [], [])
    else
      var init := stmts[..|stmts| - 1];
      var st := stmts[|stmts| - 1];
      assert stmts == init + [st];
      var b := Classify(init);
      match VerbOf(st)
      case Create => b.(creates := b.creates + [st])
      case Insert => b.(inserts := b.inserts + [st])
      case Select => b.(selects := b.selects + [st])
      case Unclassified => b
  }

  /** A statement that does not start with CREATE never reaches the CREATE
      bucket, whatever else it contains. */
  lemma NonCreateStaysOut(stmts: seq<string>, st: string)
    requires !StartsWith(st, "CREATE")
    ensures st !in Classify(stmts).creates
  {
  }

  /** Each statement lands in at most one of the three buckets. */
  lemma AtMostOneBucket(stmts: seq<string>, st: string)
    ensures var b := Classify(stmts);
            && !(st in b.creates && st in b.inserts)
            && !(st in b.creates && st in b.selects)
            && !(st in b.inserts && st in b.selects)
  {
  }

  predicate HasCreateKeyword(st: string)
  {
    Contains(st, "CREATE TABLE") || Contains(st, "CREATE VIEW")
  }

  /** A created-table name as the classifier builds it: the placeholder
      schema, then a name with no `(`, no whitespace and no lower-case ASCII. */
  predicate IsCreatedName(t: string)
  {
    && StartsWith(t, DefaultSchema)
    && var name := t[|DefaultSchema|..];
       '(' !in name && NoSpace(name) && NoLower(name)
  }

  /** `token.strip().split('(')[0].strip()` for a whitespace-free token:
      the part of the token before its first `(`, or all of it. */
  function CutAtParen(tok: string): (name: string)
    requires NoSpace(tok)
    ensures StartsWith(tok, name)
    ensures |name| == |tok| || tok[|name|] == '('
    ensures '(' !in name && NoSpace(name)
    ensures NoLower(tok) ==> NoLower(name)
  {
    StripNoSpace(tok);
    var head := SplitOn(Strip(tok), '(')[0];
    HeadShape(tok);
    StripNoSpace(head);
    Strip(head)
  }

  lemma HeadShape(tok: string)
    requires NoSpace(tok)
    ensures var head := SplitOn(tok, '(')[0];
            && StartsWith(tok, head)
            && (|head| == |tok| || tok[|head|] == '(')
            && '(' !in head && NoSpace(head)
            && (NoLower(tok) ==> NoLower(head))
  {
    var pieces := SplitOn(tok, '(');
    var head := pieces[0];
    SplitOnFirst(tok, '(');
    assert head in pieces;
    assert head == tok[..|head|];
    assert forall c :: c in head ==> c in tok;
  }

  /** The name a CREATE statement contributes (app.py:51-58). */
  function CreatedName(st: string): Option<string>
  {
    if HasCreateKeyword(st) then
      var parts := Tokens(st);
      if |parts| >= 3 then
        var tok := parts[2];
        assert tok in parts;
        Some(DefaultSchema + CutAtParen(tok))
      else
        None
    else
      None
  }

  /** A statement contributes a name exactly when it contains `CREATE TABLE`
      or `CREATE VIEW` and has at least three whitespace tokens; the name is
      `<default>.` followed by the third token cut just before its first
      `(`, and has the shape of a created name when the statement is
      upper-cased. */
  lemma CreatedNameSpec(st: string)
    ensures CreatedName(st).Some? <==> HasCreateKeyword(st) && |Tokens(st)| >= 3
    ensures CreatedName(st).Some? ==>
              var r := CreatedName(st).value;
              && StartsWith(r, DefaultSchema)
              && var name := r[|DefaultSchema|..];
                 var tok := Tokens(st)[2];
                 && StartsWith(tok, name)
                 && (|name| == |tok| || tok[|name|] == '(')
                 && '(' !in name && NoSpace(name)
    ensures CreatedName(st).Some? && NoLower(st) ==> IsCreatedName(CreatedName(st).value)
  {
    if CreatedName(st).Some? {
      var parts := Tokens(st);
      var tok := parts[2];
      assert tok in parts;
      var name := CutAtParen(tok);
      var r := DefaultSchema + name;
      assert r[|DefaultSchema|..] == name;
      assert NoLower(st) ==> NoLower(tok);
    }
  }

  /** The `create_tables.add(...)` calls, in statement order: one name per
      CREATE statement that yields one. */
  function CreatedNames(creates: seq<string>): (names: seq<string>)
    ensures forall t :: t in names ==> exists st :: st in creates && CreatedName(st) == Some(t)
    ensures forall st :: st in creates && CreatedName(st).Some? ==> CreatedName(st).value in names
    decreases |creates|
  {
    if |creates| == 0 then []
    else
      var init := creates[..|creates| - 1];
      var last := creates[|creates| - 1];
      var names := CreatedNames(init);
      var step := match CreatedName(last) case Some(t) => [t] case None => [];
      CreatedNamesStep(creates, init, last, names, step);
      names + step
  }

  lemma CreatedNamesStep(creates: seq<string>, init: seq<string>, last: string,
                         names: seq<string>, step: seq<string>)
    requires creates == init + [last]
    requires forall t :: t in names ==> exists st :: st in init && CreatedName(st) == Some(t)
    requires forall st :: st in init && CreatedName(st).Some? ==> CreatedName(st).value in names
    requires step == (match CreatedName(last) case Some(t) => [t] case None => [])
    ensures forall t :: t in names + step ==> exists st :: st in creates && CreatedName(st) == Some(t)
    ensures forall st :: st in creates && CreatedName(st).Some? ==> CreatedName(st).value in names + step
  {
    forall t | t in names + step
      ensures exists st :: st in creates && CreatedName(st) == Some(t)
    {
      if t in names {
        var st :| st in init && CreatedName(st) == Some(t);
        assert st in creates;
      } else {
        assert last in creates;
      }
    }
  }

  /** `create_tables` (app.py:49-58), enumerated without repetition: a name
      is in it exactly when some statement of the script that starts with
      CREATE yields that name, and every member has the shape of a created
      name. */
  function CreateTables(sql: string): (ct: seq<string>)
    ensures NoDups(ct)
    ensures forall t :: t in ct ==> IsCreatedName(t)
    ensures forall t :: t in ct ==>
              exists st :: st in Statements(sql) && StartsWith(st, "CREATE") && CreatedName(st) == Some(t)
    ensures forall st :: st in Statements(sql) && StartsWith(st, "CREATE") && CreatedName(st).Some? ==>
              CreatedName(st).value in ct
  {
    var stmts := Statements(sql);
    var creates := Classify(stmts).creates;
    CreateTablesShape(stmts, creates);
    Dedup(CreatedNames(creates))
  }

  lemma CreateTablesShape(stmts: seq<string>, creates: seq<string>)
    requires creates == Classify(stmts).creates
    requires forall st :: st in stmts ==> NoLower(st)
    ensures var ct := Dedup(CreatedNames(creates));
            && (forall t :: t in ct ==> IsCreatedName(t))
            && (forall t :: t in ct ==>
                  exists st :: st in stmts && StartsWith(st, "CREATE") && CreatedName(st) == Some(t))
            && (forall st :: st in stmts && StartsWith(st, "CREATE") && CreatedName(st).Some? ==>
                  CreatedName(st).value in ct)
  {
    var ct := Dedup(CreatedNames(creates));
    forall t | t in ct
      ensures IsCreatedName(t)
      ensures exists st :: st in stmts && StartsWith(st, "CREATE") && CreatedName(st) == Some(t)
    {
      var st :| st in creates && CreatedName(st) == Some(t);
      CreatedNameSpec(st);
    }
  }

  /** The name is always the third token, whatever it is: in a statement
      that opens with `CREATE TABLE IF NOT EXISTS` it is the keyword `IF`,
      not the table's name. */
  lemma IfNotExistsYieldsIf(st: string, rest: string)
    requires st == "CREATE TABLE IF NOT EXISTS " + rest
    ensures CreatedName(st) == Some(DefaultSchema + "IF")
  {
    IfNotExistsKeyword(rest);
    IfNotExistsTokens(rest);
    assert '(' !in "IF";
    CreatedNameOfThird(st, "IF");
  }

  /** A token without `(` is kept whole. */
  lemma CutAtParenWord(w: string)
    requires NoSpace(w) && '(' !in w
    ensures CutAtParen(w) == w
  {
    forall i | 0 <= i < |w|
      ensures w[i] != '('
    {
      assert w[i] in w;
    }
  }

  /** Whatever the third token is, a CREATE TABLE / CREATE VIEW statement
      names it; a token without `(` is used whole. */
  lemma CreatedNameOfThird(st: string, w: string)
    requires HasCreateKeyword(st)
    requires |Tokens(st)| >= 3 && Tokens(st)[2] == w
    requires '(' !in w
    ensures CreatedName(st) == Some(DefaultSchema + w)
  {
    assert w in Tokens(st);
    CutAtParenWord(w);
  }

  lemma IfNotExistsKeyword(rest: string)
    ensures HasCreateKeyword("CREATE TABLE IF NOT EXISTS " + rest)
  {
    var st := "CREATE TABLE IF NOT EXISTS " + rest;
    assert st[0..][..12] == "CREATE TABLE";
  }

  lemma IfNotExistsTokens(rest: string)
    ensures var ts := Tokens("CREATE TABLE IF NOT EXISTS " + rest);
            |ts| >= 3 && ts[2] == "IF"
  {
    var st := "CREATE TABLE IF NOT EXISTS " + rest;
    var words := "CREATE" + [' '] + ("TABLE" + [' '] + ("IF" + [' '] + ("NOT EXISTS " + rest)));
    assert st == words;
    IfNotExistsWords(rest);
  }

  lemma IfNotExistsWords(rest: string)
    ensures var ts := Tokens("CREATE" + [' '] + ("TABLE" + [' '] + ("IF" + [' '] + ("NOT EXISTS " + rest))));
            |ts| >= 3 && ts[2] == "IF"
  {
    UpperWord("IF");
    UpperWord("TABLE");
    UpperWord("CREATE");
    ThirdToken("CREATE", "TABLE", "IF", "NOT EXISTS " + rest);
  }

  /** The third of three space-separated leading words is the third token. */
  lemma ThirdToken(a: string, b: string, c: string, rest: string)
    requires |a| > 0 && NoSpace(a) && |b| > 0 && NoSpace(b) && |c| > 0 && NoSpace(c)
    ensures var ts := Tokens(a + [' '] + (b + [' '] + (c + [' '] + rest)));
            |ts| >= 3 && ts[2] == c
  {
    TokensCons(c, rest);
    TokensCons(b, c + [' '] + rest);
    TokensCons(a, b + [' '] + (c + [' '] + rest));
  }

  /** A word of capital letters holds no whitespace. */
  lemma UpperWord(w: string)
    requires forall i :: 0 <= i < |w| ==> 'A' <= w[i] <= 'Z'
    ensures NoSpace(w)
  {
  }

  /** A script without any CREATE TABLE or CREATE VIEW statement creates no
      table. */
  lemma NoCreateKeywordNoTables(sql: string)
    requires forall st :: st in Statements(sql) ==> !HasCreateKeyword(st)
    ensures CreateTables(sql) == []
  {
    var ct := CreateTables(sql);
    forall st | st in Statements(sql)
      ensures CreatedName(st).None?
    {
      CreatedNameSpec(st);
    }
    HeadIsMember(ct);
  }
}

=== FILE: collections.dfy ===
/**
  Python's `set` and list-comprehension idioms as sequences. A Python set is
  modelled by a sequence without duplicates; iterating over it (`[f(x) for x
  in some_set]`) visits the members in an order Python leaves unspecified,
  and the model fixes one such order, first insertion. Most properties are
  stated by membership and length; the few that equate whole sequences
  (`DedupNoDups`, and the resolver's targets equalling `create_tables`) hold
  for that chosen order.
 */
module Collections {

  datatype Option<T> = None | Some(value: T)

  predicate NoDups<T(==)>(s: seq<T>)
  {
    forall i, j :: 0 <= i < j < |s| ==> s[i] != s[j]
  }

  /** `set(s)` enumerated in first-insertion order: the same members as `s`,
      each exactly once. */
  function Dedup<T(==)>(s: seq<T>): (r: seq<T>)
    ensures NoDups(r)
    ensures forall x :: x in r ==> x in s
    ensures forall x :: x in s ==> x in r
    ensures |r| <= |s|
    decreases |s|
  {
    if |s| == 0 then []
    else
      var d := Dedup(s[..|s| - 1]);
      var x := s[|s| - 1];
      assert s == s[..|s| - 1] + [x];
      if x in d then d else d + [x]
  }

  /** Deduplicating a sequence that has no duplicates returns it unchanged. */
  lemma {:induction false} DedupNoDups<T>(s: seq<T>)
    requires NoDups(s)
    ensures Dedup(s) == s
    decreases |s|
  {
    if |s| > 0 {
      DedupNoDups(s[..|s| - 1]);
      assert s == s[..|s| - 1] + [s[|s| - 1]];
    }
  }

  /** `[x for x in s if keep(x)]`: the members of `s` that satisfy `keep`,
      in their original order. */
  function Filter<T>(s: seq<T>, keep: T -> bool): (r: seq<T>)
    ensures forall x :: x in r ==> x in s && keep(x)
    ensures forall x :: x in s && keep(x) ==> x in r
    ensures |r| <= |s|
    decreases |s|
  {
    if |s| == 0 then []
    else
      assert s == [s[0]] + s[1..];
      (if keep(s[0]) then [s[0]] else []) + Filter(s[1..], keep)
  }

  /** A non-empty sequence has a member: its first element. */
  lemma HeadIsMember<T>(s: seq<T>)
    ensures |s| > 0 ==> s[0] in s
  {
  }
}

=== FILE: graph.dfy ===
/**
  The visualization graph of app.py:90-120: one node per distinct table,
  tagged with a group, and bipartite fan-out links between the stages
  sources -> intermediates -> targets, or sources -> targets directly when
  there is no intermediate. The same cross product gives the edge list of
  lineage_renderer.py:11.
 */
module Graph {
  import opened Collections

  /** One `{"source": s, "target": t}` entry of `links`; also one
      `(src, tgt)` edge of the renderer. */
  datatype Link = Link(source: string, target: string)

  /** One `{"id": table, "group": g}` entry of `nodes`. */
  datatype Node = Node(id: string, group: nat)

  /** The links from one table to each of `ys`, in order. */
  function Fan(x: string, ys: seq<string>): (r: seq<Link>)
    ensures |r| == |ys|
    ensures forall j :: 0 <= j < |ys| ==> r[j] == Link(x, ys[j])
  {
    seq(|ys|, j requires 0 <= j < |ys| => Link(x, ys[j]))
  }

  /** `[(x, y) for x in xs for y in ys]`: every pair, `xs`-major, so the
      length is the product of the lengths (members: `CrossMembers` and
      `CrossComplete`; positions: `CrossIndex`). */
  function Cross(xs: seq<string>, ys: seq<string>): (r: seq<Link>)
    ensures |r| == |xs| * |ys|
    decreases |xs|
  {
    if |xs| == 0 then []
    else
      var rest := Cross(xs[1..], ys);
      assert |xs| * |ys| == |ys| + (|xs| - 1) * |ys|;
      Fan(xs[0], ys) + rest
  }

  /** Every link of the cross product joins a member of `xs` to a member
      of `ys`. */
  lemma {:induction false} CrossMembers(xs: seq<string>, ys: seq<string>)
    ensures forall l :: l in Cross(xs, ys) ==> l.source in xs && l.target in ys
    decreases |xs|
  {
    if |xs| > 0 {
      var rest := Cross(xs[1..], ys);
      CrossMembers(xs[1..], ys);
      assert Cross(xs, ys) == Fan(xs[0], ys) + rest;
      forall l | l in Cross(xs, ys)
        ensures l.source in xs && l.target in ys
      {
        if l in rest {
          assert l.source in xs[1..];
        } else {
          var j :| 0 <= j < |ys| && Fan(xs[0], ys)[j] == l;
        }
      }
    }
  }

  /** The pair of `xs[i]` and `ys[j]` sits at position `i * |ys| + j`. */
  lemma {:induction false} CrossIndex(xs: seq<string>, ys: seq<string>, i: nat, j: nat)
    requires i < |xs| && j < |ys|
    ensures i * |ys| + j < |Cross(xs, ys)|
    ensures Cross(xs, ys)[i * |ys| + j] == Link(xs[i], ys[j])
    decreases i
  {
    var m := |ys|;
    var rest := Cross(xs[1..], ys);
    assert Cross(xs, ys) == Fan(xs[0], ys) + rest;
    if i > 0 {
      CrossIndex(xs[1..], ys, i - 1, j);
      assert (i - 1) * m == i * m - m;
      assert xs[1..][i - 1] == xs[i];
    }
  }

  /** Every pair of a member of `xs` and a member of `ys` is linked. */
  lemma CrossComplete(xs: seq<string>, ys: seq<string>)
    ensures forall x, y :: x in xs && y in ys ==> Link(x, y) in Cross(xs, ys)
  {
    forall x, y | x in xs && y in ys
      ensures Link(x, y) in Cross(xs, ys)
    {
      var i :| 0 <= i < |xs| && xs[i] == x;
      var j :| 0 <= j < |ys| && ys[j] == y;
      CrossIndex(xs, ys, i, j);
    }
  }

  /** Cross products over a list grown at its end, as the nested loops
      build them. */
  lemma {:induction false} CrossSnoc(xs: seq<string>, x: string, ys: seq<string>)
    ensures Cross(xs + [x], ys) == Cross(xs, ys) + Fan(x, ys)
    decreases |xs|
  {
    if |xs| == 0 {
      assert xs + [x] == [x];
      assert [x][1..] == [];
    } else {
      assert (xs + [x])[0] == xs[0];
      assert (xs + [x])[1..] == xs[1..] + [x];
      CrossSnoc(xs[1..], x, ys);
    }
  }

  lemma CrossPrefix(xs: seq<string>, ys: seq<string>, i: nat)
    requires i < |xs|
    ensures Cross(xs[..i + 1], ys) == Cross(xs[..i], ys) + Fan(xs[i], ys)
  {
    assert xs[..i + 1] == xs[..i] + [xs[i]];
    CrossSnoc(xs[..i], xs[i], ys);
  }

  /** The three link loops of app.py:100-116: source->intermediate pairs,
      then intermediate->target pairs, then, only when there is no
      intermediate, source->target pairs. */
  function Links(sources: seq<string>, intermediates: seq<string>, targets: seq<string>): seq<Link>
  {
    Cross(sources, intermediates) + Cross(intermediates, targets)
      + (if |intermediates| == 0 then Cross(sources, targets) else [])
  }

  /** With intermediates, the links are all source->intermediate pairs
      followed by all intermediate->target pairs and number
      |S|*|I| + |I|*|T|; without, they are all source->target pairs and
      number |S|*|T|. No link ever skips a stage that exists. */
  lemma LinksShape(sources: seq<string>, intermediates: seq<string>, targets: seq<string>)
    ensures var links := Links(sources, intermediates, targets);
            && (|intermediates| > 0 ==>
                  && links == Cross(sources, intermediates) + Cross(intermediates, targets)
                  && |links| == |sources| * |intermediates| + |intermediates| * |targets|)
            && (|intermediates| == 0 ==>
                  && links == Cross(sources, targets)
                  && |links| == |sources| * |targets|)
  {
    var links := Links(sources, intermediates, targets);
    if |intermediates| == 0 {
      CrossEmpty(sources, intermediates);
      assert intermediates == [];
      assert links == Cross(sources, targets);
    } else {
      assert links == Cross(sources, intermediates) + Cross(intermediates, targets);
    }
  }

  /** A cross product with an empty side is empty. */
  lemma CrossEmpty(xs: seq<string>, ys: seq<string>)
    requires |ys| == 0
    ensures Cross(xs, ys) == []
  {
    assert |xs| * |ys| == 0;
  }

  lemma FanSnoc(x: string, ys: seq<string>, j: nat)
    requires j < |ys|
    ensures Fan(x, ys[..j + 1]) == Fan(x, ys[..j]) + [Link(x, ys[j])]
  {
  }

  /** The group of app.py:119: 1 for a source, else 2 for a target, else 3. */
  function Group(id: string, sources: seq<string>, targets: seq<string>): nat
  {
    if id in sources then 1 else if id in targets then 2 else 3
  }

  function NodeIds(nodes: seq<Node>): (ids: seq<string>)
    ensures |ids| == |nodes|
    ensures forall i :: 0 <= i < |nodes| ==> ids[i] == nodes[i].id
  {
    seq(|nodes|, i requires 0 <= i < |nodes| => nodes[i].id)
  }

  /** `nodes` of app.py:91-97 and 119-120: the ids are the distinct members
      of sources, targets and intermediates, each exactly once; a node is in
      group 1 exactly when its id is a source, in group 2 exactly when it is
      a target but not a source, and in group 3 otherwise. */
  function Nodes(sources: seq<string>, targets: seq<string>, intermediates: seq<string>): (nodes: seq<Node>)
    ensures NoDups(NodeIds(nodes))
    ensures forall x :: x in NodeIds(nodes) ==> x in sources || x in targets || x in intermediates
    ensures forall x :: x in sources || x in targets || x in intermediates ==> x in NodeIds(nodes)
    ensures forall n :: n in nodes ==>
              && (n.group == 1 <==> n.id in sources)
              && (n.group == 2 <==> n.id !in sources && n.id in targets)
              && (n.group == 3 <==> n.id !in sources && n.id !in targets)
  {
    var all := Dedup(sources + targets + intermediates);
    var nodes := seq(|all|, i requires 0 <= i < |all| => Node(all[i], Group(all[i], sources, targets)));
    assert NodeIds(nodes) == all;
    nodes
  }

  /** When every intermediate is also a target, no node lands in group 3. */
  lemma NoGroupThree(sources: seq<string>, targets: seq<string>, intermediates: seq<string>)
    requires forall x :: x in intermediates ==> x in targets
    ensures forall n :: n in Nodes(sources, targets, intermediates) ==> n.group != 3
  {
    var nodes := Nodes(sources, targets, intermediates);
    forall n | n in nodes
      ensures n.group != 3
    {
      var i :| 0 <= i < |nodes| && nodes[i] == n;
      assert NodeIds(nodes)[i] == n.id;
    }
  }
}

=== FILE: lineage_script.dfy ===
/**
  `analyze_lineage` of sql_lineage_with_ai.py:43-103, the command-line copy
  of the resolver, which returns the `(sources, targets, intermediates)`
  triple without a graph. Its code is line for line that of app.py:30-88,
  so it is modelled by the same `Resolver.Resolve`.
 */
module LineageScript {
  import opened Text
  import opened Collections
  import Classifier
  import Resolver

  function AnalyzeLineage(sql: string, parserSources: seq<string>, parserTargets: seq<string>)
    : Resolver.Lineage
  {
    Resolver.Resolve(sql, parserSources, parserTargets)
  }

  /** Outside the fallback (the script creates a table, or the parser
      reports a source) every reported target is `<default>.` followed by
      the third token of an upper-cased CREATE TABLE / CREATE VIEW
      statement of the script, cut before its first `(`, and every such
      statement's name is reported. */
  lemma TargetsComeFromCreateStatements(sql: string, parserSources: seq<string>, parserTargets: seq<string>)
    ensures var r := AnalyzeLineage(sql, parserSources, parserTargets);
            (Classifier.CreateTables(sql) != [] || parserSources != []) ==>
              && (forall t :: t in r.targets ==>
                    && Classifier.IsCreatedName(t)
                    && exists st :: st in Classifier.Statements(sql) && StartsWith(st, "CREATE")
                                    && Classifier.CreatedName(st) == Some(t))
              && (forall st :: st in Classifier.Statements(sql) && StartsWith(st, "CREATE")
                               && Classifier.CreatedName(st).Some? ==>
                    Classifier.CreatedName(st).value in r.targets)
  {
    var ct := Classifier.CreateTables(sql);
    if ct != [] || parserSources != [] {
      Resolver.CreateTablesAreCreatedSet(sql);
      Resolver.RefinedResult(ct, parserSources, parserTargets);
    }
  }

  /** Outside the fallback, the parser's source strings split into those
      that are created tables, which are exactly the intermediates, and the
      rest, which reach the sources label-stripped. */
  lemma SourcesSplitOnCreatedTables(sql: string, parserSources: seq<string>, parserTargets: seq<string>)
    ensures var r := AnalyzeLineage(sql, parserSources, parserTargets);
            var ct := Classifier.CreateTables(sql);
            (ct != [] || parserSources != []) ==>
              && (forall t :: t in parserSources ==>
                    (t in ct <==> t in r.intermediates)
                    && (t !in ct ==> Resolver.StripLabel(t) in r.sources))
              && (forall x :: x in r.intermediates ==> x in parserSources)
  {
    var ct := Classifier.CreateTables(sql);
    if ct != [] || parserSources != [] {
      Resolver.CreateTablesAreCreatedSet(sql);
      Resolver.RefinedResult(ct, parserSources, parserTargets);
    }
  }

  /** When the script creates no table and the parser reports no source,
      the triple is no sources, the stripped parser targets, and no
      intermediates. */
  lemma ScriptFallback(sql: string, parserTargets: seq<string>)
    ensures Classifier.CreateTables(sql) == [] ==>
              AnalyzeLineage(sql, [], parserTargets) == Resolver.Lineage([], Resolver.StripAll(parserTargets), [])
  {
    var ct := Classifier.CreateTables(sql);
    if ct == [] {
      Resolver.FallbackResult(ct, [], parserTargets);
    }
  }
}

=== FILE: link_loops.dfy ===
/**
  The link-building loops of app.py:99-116 as imperative code: nested
  `for` loops appending one link per pair, shown to build the links that
  `Graph.Links` describes.
 */
module LinkLoops {
  import opened Graph

  /** One loop of app.py:103-116, `for x in xs: for y in ys:
      links.append(...)`, appending to the links built so far. */
  method AppendPairs(links: seq<Link>, xs: seq<string>, ys: seq<string>) returns (out: seq<Link>)
    ensures out == links + Cross(xs, ys)
  {
    out := links;
    for i := 0 to |xs|
      invariant out == links + Cross(xs[..i], ys)
    {
      out := AppendFan(out, xs[i], ys);
      CrossPrefix(xs, ys, i);
    }
    assert xs[..|xs|] == xs;
  }

  /** The inner loop: one link from `x` to each of `ys`, in order. */
  method AppendFan(links: seq<Link>, x: string, ys: seq<string>) returns (out: seq<Link>)
    ensures out == links + Fan(x, ys)
  {
    out := links;
    for j := 0 to |ys|
      invariant out == links + Fan(x, ys[..j])
    {
      FanSnoc(x, ys, j);
      out := out + [Link(x, ys[j])];
    }
    assert ys[..|ys|] == ys;
  }

  /** The link-building code as written, three loops in a row, computes
      `Links`. */
  method BuildLinks(sources: seq<string>, intermediates: seq<string>, targets: seq<string>)
    returns (links: seq<Link>)
    ensures links == Links(sources, intermediates, targets)
  {
    links := AppendPairs([], sources, intermediates);
    links := AppendPairs(links, intermediates, targets);
    if |intermediates| == 0 {
      links := AppendPairs(links, sources, targets);
    }
  }
}

=== FILE: renderer.dfy ===
/**
  `get_lineage_details` and `print_lineage_details` of lineage_renderer.py:
  the parser's source and target lists, unfiltered and unstripped, and the
  edge from every source to every target.
 */
module Renderer {
  import opened Graph

  /** The `(edges, sources, targets)` triple. */
  datatype Details = Details(edges: seq<Link>, sources: seq<string>, targets: seq<string>)

  /** The lists come back exactly as the parser gave them, and the edges
      are every (source, target) pair: |sources| * |targets| of them, none
      at all exactly when either list is empty, each joining a listed
      source to a listed target. */
  function GetLineageDetails(parserSources: seq<string>, parserTargets: seq<string>): (d: Details)
    ensures d.sources == parserSources && d.targets == parserTargets
    ensures |d.edges| == |parserSources| * |parserTargets|
    ensures d.edges == [] <==> parserSources == [] || parserTargets == []
    ensures forall e :: e in d.edges ==> e.source in parserSources && e.target in parserTargets
  {
    var edges := Cross(parserSources, parserTargets);
    CrossMembers(parserSources, parserTargets);
    assert parserSources != [] && parserTargets != [] ==> edges != [] by {
      if parserSources != [] && parserTargets != [] {
        CrossIndex(parserSources, parserTargets, 0, 0);
      }
    }
    Details(edges, parserSources, parserTargets)
  }

  /** The edge list is source-major: the edge of `sources[i]` and
      `targets[j]` is at position `i * |targets| + j`. */
  lemma EdgeAt(parserSources: seq<string>, parserTargets: seq<string>, i: nat, j: nat)
    requires i < |parserSources| && j < |parserTargets|
    ensures var edges := GetLineageDetails(parserSources, parserTargets).edges;
            i * |parserTargets| + j < |edges|
            && edges[i * |parserTargets| + j] == Link(parserSources[i], parserTargets[j])
  {
    CrossIndex(parserSources, parserTargets, i, j);
  }

  /** Every source-target pair has its edge. */
  lemma EveryPairHasEdge(parserSources: seq<string>, parserTargets: seq<string>)
    ensures var edges := GetLineageDetails(parserSources, parserTargets).edges;
            forall s, t :: s in parserSources && t in parserTargets ==> Link(s, t) in edges
  {
    CrossComplete(parserSources, parserTargets);
  }

  /** Printing aside, `print_lineage_details` hands back the very triple
      `get_lineage_details` computed. */
  function PrintLineageDetails(parserSources: seq<string>, parserTargets: seq<string>): (d: Details)
    ensures d == GetLineageDetails(parserSources, parserTargets)
    ensures |d.edges| == |d.sources| * |d.targets|
  {
    GetLineageDetails(parserSources, parserTargets)
  }
}

=== FILE: resolver.dfy ===
/**
  The lineage resolver of `analyze_lineage` (app.py:60-88, repeated verbatim
  at sql_lineage_with_ai.py:73-101). The SQL parser is outside the model:
  its results arrive as `parserSources` and `parserTargets`, the `str()` of
  each table of `runner.source_tables` and `runner.target_tables`, in the
  parser's order.
 */
module Resolver {
  import opened Text
  import opened Collections
  import Classifier

  /** The `(sources, targets, intermediates)` triple both entry points return. */
  datatype Lineage = Lineage(sources: seq<string>, targets: seq<string>, intermediates: seq<string>)

  /** `sources_set`, `targets_set` and `intermediate_tables`, enumerated. */
  datatype TableSets = TableSets(sourcesSet: seq<string>, targetsSet: seq<string>, intermediateSet: seq<string>)

  const Label: string := "Table: "

  /** `table.replace("Table: ", "")`: every occurrence of the label that
      `str.count` would count is removed, so the result is seven characters
      shorter per occurrence, and it is the input itself exactly when the
      label does not occur in it. */
  function StripLabel(t: string): (r: string)
    ensures |r| <= |t|
    ensures |r| == |t| - |Label| * Occurrences(t, Label)
    ensures r == t <==> !Contains(t, Label)
  {
    RemoveAll(t, Label)
  }

  /** A leading label goes, and the rest is stripped in turn: a labelled
      name `"Table: " + x` with no further label in `x` strips to `x`. */
  lemma StripLabelPrefix(t: string)
    ensures StripLabel(Label + t) == StripLabel(t)
    ensures !Contains(t, Label) ==> StripLabel(Label + t) == t
  {
    RemoveAllPrefix(Label, t);
  }

  /** A label after a label-free stretch `u` is cut out and `u` is kept:
      `"aTable: b"` strips to `"ab"`. */
  lemma StripLabelFirst(u: string, t: string)
    requires NoMatchBefore(u + Label + t, Label, |u|)
    ensures StripLabel(u + Label + t) == u + StripLabel(t)
  {
    RemoveAllFirst(u, Label, t);
  }

  /** `[x.replace("Table: ", "") for x in ts]`. */
  function StripAll(ts: seq<string>): (r: seq<string>)
    ensures |r| == |ts|
    ensures forall i :: 0 <= i < |ts| ==> r[i] == StripLabel(ts[i])
  {
    seq(|ts|, i requires 0 <= i < |ts| => StripLabel(ts[i]))
  }

  /** A created-table name never holds the label: its only lower-case
      letters are those of `<default>`, and the label's `T` would have to
      fall inside that prefix. */
  lemma CreatedNameHasNoLabel(t: string)
    requires Classifier.IsCreatedName(t)
    ensures !Contains(t, Label)
    ensures StripLabel(t) == t
  {
    var n := |Classifier.DefaultSchema|;
    forall i | 0 <= i <= |t|
      ensures !StartsWith(t[i..], Label)
    {
      if i + |Label| <= |t| {
        assert t[i..][0] == t[i] && t[i..][1] == t[i + 1];
        if i < n {
          assert t[i] == Classifier.DefaultSchema[i] != 'T';
        } else {
          assert t[i + 1] == t[n..][i + 1 - n];
          assert !IsLowerAscii(t[i + 1]);
        }
      }
    }
  }

  lemma StripAllCreated(ts: seq<string>)
    requires forall t :: t in ts ==> Classifier.IsCreatedName(t)
    ensures StripAll(ts) == ts
  {
    forall i | 0 <= i < |ts|
      ensures StripAll(ts)[i] == ts[i]
    {
      assert ts[i] in ts;
      CreatedNameHasNoLabel(ts[i]);
    }
  }

  /** The three set-building loops of app.py:61-77: a parser source lands
      in `sources_set` when it is not a created table and in
      `intermediate_tables` when it is, and `targets_set` is a copy of
      `create_tables`. */
  function Partition(createTables: seq<string>, parserSources: seq<string>): (p: TableSets)
    ensures NoDups(p.sourcesSet) && NoDups(p.targetsSet) && NoDups(p.intermediateSet)
    ensures forall t :: t in p.sourcesSet ==> t in parserSources && t !in createTables
    ensures forall t :: t in parserSources && t !in createTables ==> t in p.sourcesSet
    ensures forall t :: t in p.intermediateSet ==> t in parserSources && t in createTables
    ensures forall t :: t in parserSources && t in createTables ==> t in p.intermediateSet
    ensures forall t :: t in p.targetsSet <==> t in createTables
  {
    TableSets(
      Dedup(Filter(parserSources, t => t !in createTables)),
      Dedup(createTables),
      Dedup(Filter(parserSources, t => t in createTables)))
  }

  /** `sources_set` and `intermediate_tables` split the parser's source
      strings: they share no member and together hold all of them. */
  lemma PartitionIsExact(createTables: seq<string>, parserSources: seq<string>)
    ensures var p := Partition(createTables, parserSources);
            && (set t | t in p.sourcesSet) * (set t | t in p.intermediateSet) == {}
            && (set t | t in p.sourcesSet) + (set t | t in p.intermediateSet) == (set t | t in parserSources)
            && (set t | t in p.intermediateSet) <= (set t | t in p.targetsSet)
  {
  }

  /** The refined result before the fallback test (app.py:80-82). */
  function Refine(createTables: seq<string>, parserSources: seq<string>): Lineage
  {
    var p := Partition(createTables, parserSources);
    Lineage(StripAll(p.sourcesSet), StripAll(p.targetsSet), StripAll(p.intermediateSet))
  }

  /** The refined `sources` and `targets` are both empty exactly when the
      script creates no table and the parser reports no source table. */
  lemma FallbackCondition(createTables: seq<string>, parserSources: seq<string>)
    ensures var refined := Refine(createTables, parserSources);
            (|refined.sources| == 0 && |refined.targets| == 0)
              <==> (createTables == [] && parserSources == [])
  {
    var p := Partition(createTables, parserSources);
    if createTables != [] {
      assert createTables[0] in p.targetsSet;
    }
    if createTables == [] && parserSources != [] {
      assert parserSources[0] in p.sourcesSet;
    }
  }

  /** The part of `analyze_lineage` after `create_tables` is built
      (app.py:60-88): refine, and fall back to the parser's own lists when
      the refined sources and targets are both empty. */
  function Decide(createTables: seq<string>, parserSources: seq<string>, parserTargets: seq<string>): Lineage
  {
    var refined := Refine(createTables, parserSources);
    if |refined.sources| == 0 && |refined.targets| == 0 then
      Lineage(StripAll(parserSources), StripAll(parserTargets), refined.intermediates)
    else
      refined
  }

  /** `analyze_lineage` up to its return of the triple (app.py:30-88). */
  function Resolve(sql: string, parserSources: seq<string>, parserTargets: seq<string>): Lineage
  {
    Decide(Classifier.CreateTables(sql), parserSources, parserTargets)
  }

  /** What the classifier guarantees of `create_tables`: no repeats, and
      every member of the created-name shape. */
  predicate CreatedSet(createTables: seq<string>)
  {
    NoDups(createTables) && forall t :: t in createTables ==> Classifier.IsCreatedName(t)
  }

  lemma CreateTablesAreCreatedSet(sql: string)
    ensures CreatedSet(Classifier.CreateTables(sql))
  {
  }

  /** The fallback fires exactly when the script creates no table and the
      parser reports no source table; it then returns the label-stripped
      parser targets, no sources and no intermediates. */
  lemma FallbackResult(createTables: seq<string>, parserSources: seq<string>, parserTargets: seq<string>)
    requires createTables == [] && parserSources == []
    ensures Decide(createTables, parserSources, parserTargets) == Lineage([], StripAll(parserTargets), [])
  {
    FallbackCondition(createTables, parserSources);
    assert StripAll(parserSources) == [];
  }

  /** Outside the fallback: targets are exactly the created tables (the
      label never occurs in them), intermediates are exactly the parser
      sources that are created tables, each once, and sources are the
      label-stripped parser sources that are not. */
  lemma RefinedResult(createTables: seq<string>, parserSources: seq<string>, parserTargets: seq<string>)
    requires CreatedSet(createTables)
    requires createTables != [] || parserSources != []
    ensures var r := Decide(createTables, parserSources, parserTargets);
            var ct := createTables;
            && r.targets == ct
            && (forall x :: x in r.intermediates ==> x in parserSources && x in ct)
            && (forall x :: x in parserSources && x in ct ==> x in r.intermediates)
            && (forall x :: x in r.sources ==>
                  exists t :: t in parserSources && t !in ct && x == StripLabel(t))
            && (forall t :: t in parserSources && t !in ct ==> StripLabel(t) in r.sources)
            && NoDups(r.intermediates)
  {
    var ct := createTables;
    FallbackCondition(ct, parserSources);
    assert Decide(ct, parserSources, parserTargets) == Refine(ct, parserSources);
    RefinedTargets(ct, parserSources);
    RefinedIntermediates(ct, parserSources);
    RefinedSources(ct, parserSources);
  }

  lemma RefinedTargets(ct: seq<string>, parserSources: seq<string>)
    requires CreatedSet(ct)
    ensures Refine(ct, parserSources).targets == ct
  {
    DedupNoDups(ct);
    StripAllCreated(ct);
  }

  lemma RefinedIntermediates(ct: seq<string>, parserSources: seq<string>)
    requires CreatedSet(ct)
    ensures var r := Refine(ct, parserSources);
            && (forall x :: x in r.intermediates ==> x in parserSources && x in ct)
            && (forall x :: x in parserSources && x in ct ==> x in r.intermediates)
            && NoDups(r.intermediates)
  {
    var p := Partition(ct, parserSources);
    StripAllCreated(p.intermediateSet);
  }

  lemma RefinedSources(ct: seq<string>, parserSources: seq<string>)
    ensures var r := Refine(ct, parserSources);
            && (forall x :: x in r.sources ==>
                  exists t :: t in parserSources && t !in ct && x == StripLabel(t))
            && (forall t :: t in parserSources && t !in ct ==> StripLabel(t) in r.sources)
  {
    var p := Partition(ct, parserSources);
    var sources := Refine(ct, parserSources).sources;
    forall x | x in sources
      ensures exists t :: t in parserSources && t !in ct && x == StripLabel(t)
    {
      var i :| 0 <= i < |sources| && sources[i] == x;
      assert p.sourcesSet[i] in p.sourcesSet;
    }
    forall t | t in parserSources && t !in ct
      ensures StripLabel(t) in sources
    {
      var i :| 0 <= i < |p.sourcesSet| && p.sourcesSet[i] == t;
      assert sources[i] == StripLabel(t);
    }
  }

  /** Every intermediate is also a target, on both paths. */
  lemma IntermediatesAreTargets(createTables: seq<string>, parserSources: seq<string>, parserTargets: seq<string>)
    requires CreatedSet(createTables)
    ensures var r := Decide(createTables, parserSources, parserTargets);
            forall x :: x in r.intermediates ==> x in r.targets
  {
    if createTables == [] && parserSources == [] {
      FallbackResult(createTables, parserSources, parserTargets);
    } else {
      RefinedResult(createTables, parserSources, parserTargets);
    }
  }

  /** With no created table and at least one parser source, the result has
      no targets and no intermediates, even when the parser reports targets:
      the parser's target list is only ever consulted by the fallback. */
  lemma NoCreateDropsParserTargets(parserSources: seq<string>, parserTargets: seq<string>)
    requires |parserSources| > 0
    ensures var r := Decide([], parserSources, parserTargets);
            r.targets == [] && r.intermediates == [] && |r.sources| > 0
  {
    var p := Partition([], parserSources);
    assert parserSources[0] in p.sourcesSet;
    HeadIsMember(p.intermediateSet);
    HeadIsMember(p.targetsSet);
  }

  /** Created names are upper-cased but parser names are compared as they
      come, so a parser source `<default>.x` whose name part holds a
      lower-case letter is never an intermediate: it is reported as a
      source even when the script creates the same table. */
  lemma LowerCaseSourceNeverIntermediate(createTables: seq<string>, parserSources: seq<string>,
                                         parserTargets: seq<string>, t: string)
    requires CreatedSet(createTables)
    requires t in parserSources
    requires StartsWith(t, Classifier.DefaultSchema) && !NoLower(t[|Classifier.DefaultSchema|..])
    ensures var r := Decide(createTables, parserSources, parserTargets);
            t !in r.intermediates && StripLabel(t) in r.sources
  {
    assert t !in createTables;
    RefinedResult(createTables, parserSources, parserTargets);
  }
}

=== FILE: text.dfy ===
/**
  The handful of Python `str` operations the lineage classifier is built from,
  over `string` (that is, `seq<char>`): `strip()`, ASCII `upper()`,
  `split(sep)`, `split()`, `startswith`, the `in` substring test and
  `replace(pat, "")`.
 */
module Text {

  /** Python's `str.isspace()` for one character: the characters that
      `strip()` removes and `split()` splits on. */
  predicate IsSpace(c: char)
  {
    || c == ' '
    || ('\t' <= c <= '\r')
    || ('\U{1C}' <= c <= '\U{1F}')
    || c == '\U{85}' || c == '\U{A0}' || c == '\U{1680}'
    || ('\U{2000}' <= c <= '\U{200A}')
    || c == '\U{2028}' || c == '\U{2029}' || c == '\U{202F}' || c == '\U{205F}'
    || c == '\U{3000}'
  }

  predicate AllSpace(s: string)
  {
    forall i :: 0 <= i < |s| ==> IsSpace(s[i])
  }

  predicate NoSpace(s: string)
  {
    forall c :: c in s ==> !IsSpace(c)
  }

  predicate IsLowerAscii(c: char)
  {
    'a' <= c <= 'z'
  }

  predicate NoLower(s: string)
  {
    forall c :: c in s ==> !IsLowerAscii(c)
  }

  /** `upper()` restricted to ASCII: `a`..`z` become `A`..`Z`, every other
      character is kept. */
  function UpperChar(c: char): (u: char)
    ensures !IsLowerAscii(u)
    ensures IsSpace(u) <==> IsSpace(c)
    ensures u == c || (IsLowerAscii(c) && u as int + 32 == c as int)
  {
    if IsLowerAscii(c) then (c as int - 32) as char else c
  }

  /** Python's `upper()` on ASCII text: each lower-case letter becomes the
      letter 32 code points below it, every other character is kept. */
  function Upper(s: string): (r: string)
    ensures |r| == |s|
    ensures NoLower(r)
    ensures forall i :: 0 <= i < |s| && IsLowerAscii(s[i]) ==> r[i] as int == s[i] as int - 32
    ensures forall i :: 0 <= i < |s| && !IsLowerAscii(s[i]) ==> r[i] == s[i]
    ensures forall i :: 0 <= i < |s| ==> (IsSpace(r[i]) <==> IsSpace(s[i]))
  {
    seq(|s|, i requires 0 <= i < |s| => UpperChar(s[i]))
  }

  function TrimStart(s: string): (r: string)
    ensures |r| <= |s| && r == s[|s| - |r|..]
    ensures AllSpace(s[..|s| - |r|])
    ensures r == [] || !IsSpace(r[0])
    decreases |s|
  {
    if |s| > 0 && IsSpace(s[0]) then
      var r := TrimStart(s[1..]);
      assert s[1..][..|s| - 1 - |r|] == s[1..|s| - |r|];
      assert s[..|s| - |r|] == [s[0]] + s[1..|s| - |r|];
      r
    else
      s
  }

  function TrimEnd(s: string): (r: string)
    ensures |r| <= |s| && r == s[..|r|]
    ensures AllSpace(s[|r|..])
    ensures r == [] || !IsSpace(r[|r| - 1])
    decreases |s|
  {
    if |s| > 0 && IsSpace(s[|s| - 1]) then
      var r := TrimEnd(s[..|s| - 1]);
      assert s[..|s| - 1][|r|..] == s[|r|..|s| - 1];
      assert s[|r|..] == s[|r|..|s| - 1] + [s[|s| - 1]];
      r
    else
      s
  }

  /** `s` is `r` with whitespace only before it (the first `k` characters)
      and after it. */
  predicate PaddedBy(s: string, r: string, k: int)
  {
    && 0 <= k <= |s| - |r|
    && s[k..k + |r|] == r
    && AllSpace(s[..k]) && AllSpace(s[k + |r|..])
  }

  /** Python's `str.strip()`: the input is the result padded on both sides
      with whitespace only, and the result neither starts nor ends with
      whitespace. */
  function Strip(s: string): (r: string)
    ensures |r| <= |s|
    ensures r == [] || (!IsSpace(r[0]) && !IsSpace(r[|r| - 1]))
    ensures exists k :: PaddedBy(s, r, k)
    ensures forall c :: c in r ==> c in s
  {
    var t := TrimStart(s);
    var r := TrimEnd(t);
    StripShape(s, t, r);
    r
  }

  lemma StripShape(s: string, t: string, r: string)
    requires |t| <= |s| && t == s[|s| - |t|..] && AllSpace(s[..|s| - |t|])
    requires t == [] || !IsSpace(t[0])
    requires |r| <= |t| && r == t[..|r|] && AllSpace(t[|r|..])
    requires r == [] || !IsSpace(r[|r| - 1])
    ensures |r| <= |s|
    ensures r == [] || (!IsSpace(r[0]) && !IsSpace(r[|r| - 1]))
    ensures PaddedBy(s, r, |s| - |t|)
    ensures forall c :: c in r ==> c in s
  {
    var k := |s| - |t|;
    assert s[k..] == t;
    assert s[k..k + |r|] == t[..|r|];
    SuffixAllSpace(s, k, t, |r|);
    if r != [] {
      assert r[0] == t[0];
    }
    forall c | c in r
      ensures c in s
    {
      var i :| 0 <= i < |r| && r[i] == c;
      assert s[k + i] == c;
    }
  }

  lemma SuffixAllSpace(s: string, k: nat, t: string, n: nat)
    requires k <= |s| && s[k..] == t && n <= |t| && AllSpace(t[n..])
    ensures AllSpace(s[k + n..])
  {
    var tail := s[k + n..];
    assert tail == t[n..];
  
  }

  /** Stripping a string that holds no whitespace returns it unchanged. */
  lemma StripNoSpace(s: string)
    requires NoSpace(s)
    ensures Strip(s) == s
  {
  }

  function Count(s: string, c: char): nat
    decreases |s|
  {
    if |s| == 0 then 0 else (if s[0] == c then 1 else 0) + Count(s[1..], c)
  }

  /** `sep.join(parts)`, the inverse of `SplitOn`. */
  function Join(parts: seq<string>, sep: char): string
    requires |parts| > 0
    decreases |parts|
  {
    if |parts| == 1 then parts[0] else parts[0] + [sep] + Join(parts[1..], sep)
  }

  /** Python's `s.split(sep)` with an explicit one-character separator:
      empty pieces are kept, so there is always one piece more than there
      are separators, and joining the pieces back gives the input. */
  function SplitOn(s: string, sep: char): (parts: seq<string>)
    ensures |parts| == Count(s, sep) + 1
    ensures forall p :: p in parts ==> sep !in p
    ensures Join(parts, sep) == s
    decreases |s|
  {
    if |s| == 0 then
      [""]
    else
      var rest := SplitOn(s[1..], sep);
      if s[0] == sep then
        [""] + rest
      else
        var parts := [[s[0]] + rest[0]] + rest[1..];
        assert parts[1..] == rest[1..];
        assert Join(parts, sep) == [s[0]] + Join(rest, sep);
        assert s == [s[0]] + s[1..];
        parts
  }

  /** The first piece of a split is the text before the first separator. */
  lemma SplitOnFirst(s: string, sep: char)
    ensures var p := SplitOn(s, sep)[0];
            StartsWith(s, p) && (|p| == |s| || s[|p|] == sep)
  {
    var parts := SplitOn(s, sep);
    JoinHead(parts, sep);
  }

  lemma {:induction false} JoinHead(parts: seq<string>, sep: char)
    requires |parts| > 0
    ensures var j := Join(parts, sep);
            StartsWith(j, parts[0]) && (|parts| == 1 <==> |j| == |parts[0]|)
            && (|parts| > 1 ==> j[|parts[0]|] == sep)
  {
  }

  /** Splitting on a separator that a string does not contain, after a
      prefix free of it, keeps the prefix at the head of the first piece. */
  lemma {:induction false} SplitOnPrefix(p: string, tail: string, sep: char)
    requires sep !in p
    ensures var t := SplitOn(tail, sep);
            SplitOn(p + tail, sep) == [p + t[0]] + t[1..]
    decreases |p|
  {
    if |p| == 0 {
      var t := SplitOn(tail, sep);
      assert p + tail == tail;
      assert p + t[0] == t[0];
      assert [t[0]] + t[1..] == t;
    } else {
      assert (p + tail)[1..] == p[1..] + tail;
      SplitOnPrefix(p[1..], tail, sep);
      assert [p[0]] + (p[1..] + SplitOn(tail, sep)[0]) == p + SplitOn(tail, sep)[0];
    }
  }

  /** Split is the inverse of join for pieces free of the separator. */
  lemma {:induction false} SplitJoin(parts: seq<string>, sep: char)
    requires |parts| > 0
    requires forall p :: p in parts ==> sep !in p
    ensures SplitOn(Join(parts, sep), sep) == parts
    decreases |parts|
  {
    if |parts| == 1 {
      SplitOnPrefix(parts[0], "", sep);
      assert parts[0] + "" == parts[0];
      assert SplitOn("", sep) == [""];
    } else {
      var rest := Join(parts[1..], sep);
      SplitJoin(parts[1..], sep);
      assert parts[0] + [sep] + rest == parts[0] + ([sep] + rest);
      SplitOnPrefix(parts[0], [sep] + rest, sep);
      assert ([sep] + rest)[1..] == rest;
      var t := SplitOn([sep] + rest, sep);
      assert t == [""] + SplitOn(rest, sep);
      assert t[0] == "" && t[1..] == parts[1..];
      assert parts[0] + t[0] == parts[0];
      assert parts == [parts[0]] + parts[1..];
    }
  }

  /** Length of the run of non-whitespace characters that opens `s`. */
  function TokenLen(s: string): (n: nat)
    ensures n <= |s| && NoSpace(s[..n])
    ensures n < |s| ==> IsSpace(s[n])
    decreases |s|
  {
    if |s| == 0 || IsSpace(s[0]) then 0
    else
      var n := 1 + TokenLen(s[1..]);
      assert s[..n] == [s[0]] + s[1..][..n - 1];
      n
  }

  /** `s` with every whitespace character removed. */
  function RemoveSpace(s: string): string
    decreases |s|
  {
    if |s| == 0 then "" else (if IsSpace(s[0]) then "" else [s[0]]) + RemoveSpace(s[1..])
  }

  function Concat(ts: seq<string>): string
    decreases |ts|
  {
    if |ts| == 0 then "" else ts[0] + Concat(ts[1..])
  }

  lemma {:induction false} RemoveSpaceAppend(a: string, b: string)
    ensures RemoveSpace(a + b) == RemoveSpace(a) + RemoveSpace(b)
    decreases |a|
  {
    if |a| == 0 {
      assert a + b == b;
    } else {
      assert (a + b)[1..] == a[1..] + b;
      RemoveSpaceAppend(a[1..], b);
    }
  }

  lemma {:induction false} RemoveSpaceNoSpace(a: string)
    requires NoSpace(a)
    ensures RemoveSpace(a) == a
    decreases |a|
  {
    if |a| > 0 {
      assert a[0] in a;
      RemoveSpaceNoSpace(a[1..]);
      assert a == [a[0]] + a[1..];
    }
  }

  /** Python's `s.split()` with no argument: the maximal runs of
      non-whitespace. Every token is non-empty and whitespace-free, every
      token character comes from the input, and the tokens laid end to end
      are the input with its whitespace removed. */
  function Tokens(s: string): (ts: seq<string>)
    ensures forall t :: t in ts ==> |t| > 0 && NoSpace(t)
    ensures forall t :: t in ts ==> forall c :: c in t ==> c in s
    ensures Concat(ts) == RemoveSpace(s)
    decreases |s|
  {
    if |s| == 0 then []
    else if IsSpace(s[0]) then
      var ts := Tokens(s[1..]);
      TokensSkip(s, ts);
      ts
    else
      var n := TokenLen(s);
      var rest := Tokens(s[n..]);
      TokensTake(s, n, rest);
      [s[..n]] + rest
  }

  lemma TokensSkip(s: string, ts: seq<string>)
    requires |s| > 0 && IsSpace(s[0])
    requires forall t :: t in ts ==> forall c :: c in t ==> c in s[1..]
    requires Concat(ts) == RemoveSpace(s[1..])
    ensures forall t :: t in ts ==> forall c :: c in t ==> c in s
    ensures Concat(ts) == RemoveSpace(s)
  {
    assert forall c :: c in s[1..] ==> c in s;
  }

  lemma TokensTake(s: string, n: nat, rest: seq<string>)
    requires 0 < n <= |s| && NoSpace(s[..n])
    requires forall t :: t in rest ==> forall c :: c in t ==> c in s[n..]
    requires Concat(rest) == RemoveSpace(s[n..])
    ensures forall t :: t in [s[..n]] + rest ==> forall c :: c in t ==> c in s
    ensures Concat([s[..n]] + rest) == RemoveSpace(s)
  {
    var ts := [s[..n]] + rest;
    assert s == s[..n] + s[n..];
    RemoveSpaceAppend(s[..n], s[n..]);
    RemoveSpaceNoSpace(s[..n]);
    assert ts[1..] == rest;
    assert forall c :: c in s[n..] ==> c in s;
    assert forall c :: c in s[..n] ==> c in s;
  }

  /** A leading run of non-whitespace ended by whitespace or by the end of
      the string is the one `TokenLen` measures. */
  lemma TokenLenUnique(s: string, k: nat)
    requires k <= |s| && NoSpace(s[..k])
    requires k < |s| ==> IsSpace(s[k])
    ensures TokenLen(s) == k
  {
    var n := TokenLen(s);
    NoSpaceBefore(s, k, n);
    NoSpaceBefore(s, n, k);
  }

  lemma NoSpaceBefore(s: string, k: nat, i: nat)
    requires k <= |s| && NoSpace(s[..k])
    ensures i < k ==> !IsSpace(s[i])
  {
    if i < k {
      assert s[..k][i] == s[i];
    }
  }

  /** Everything before a whitespace-only prefix's end is whitespace. */
  lemma SpaceBefore(s: string, k: int, j: int)
    requires 0 <= k <= |s| && AllSpace(s[..k])
    ensures 0 <= j < k ==> IsSpace(s[j])
  {
    if 0 <= j < k {
      assert s[..k][j] == s[j];
    }
  }

  /** Everything from a whitespace-only suffix's start is whitespace. */
  lemma SpaceAfter(s: string, k: int, j: int)
    requires 0 <= k <= |s| && AllSpace(s[k..])
    ensures k <= j < |s| ==> IsSpace(s[j])
  {
    if k <= j < |s| {
      assert s[k..][j - k] == s[j];
    }
  }

  /** A word followed by a space is the first token, and the tokens of
      the rest follow it. */
  lemma TokensCons(w: string, rest: string)
    requires |w| > 0 && NoSpace(w)
    ensures Tokens(w + [' '] + rest) == [w] + Tokens(rest)
  {
    var s := w + [' '] + rest;
    assert s[..|w|] == w;
    TokenLenUnique(s, |w|);
    assert s[|w|..] == [' '] + rest;
    assert ([' '] + rest)[1..] == rest;
  }

  /** A single word is its own only token. */
  lemma TokensWord(w: string)
    requires |w| > 0 && NoSpace(w)
    ensures Tokens(w) == [w]
  {
    assert w[..|w|] == w;
    TokenLenUnique(w, |w|);
    assert w[|w|..] == "";
  }

  /** `split()` recovers the words that a single space joined: for
      non-empty whitespace-free words, `" ".join(ws).split() == ws`. */
  lemma {:induction false} TokensOfSpaced(ws: seq<string>)
    requires |ws| > 0
    requires forall w :: w in ws ==> |w| > 0 && NoSpace(w)
    ensures Tokens(Join(ws, ' ')) == ws
    decreases |ws|
  {
    var w := ws[0];
    assert w in ws;
    if |ws| == 1 {
      TokensWord(w);
    } else {
      var rest := Join(ws[1..], ' ');
      assert Join(ws, ' ') == w + [' '] + rest;
      TokensCons(w, rest);
      assert forall v :: v in ws[1..] ==> v in ws;
      TokensOfSpaced(ws[1..]);
      assert ws == [w] + ws[1..];
    }
  }

  /** Text made of whitespace only has no tokens. */
  lemma {:induction false} TokensAllSpace(s: string)
    requires AllSpace(s)
    ensures Tokens(s) == []
    decreases |s|
  {
    if |s| > 0 {
      assert forall i :: 0 <= i < |s| - 1 ==> s[1..][i] == s[i + 1];
      TokensAllSpace(s[1..]);
    }
  }

  /** Every whitespace character is a token boundary, whichever it is and
      however many surround it: the tokens of `a`, one whitespace character
      and `b` are the tokens of `a` followed by the tokens of `b`. */
  lemma TokensAtSpace(a: string, c: char, b: string)
    requires IsSpace(c)
    ensures Tokens(a + [c] + b) == Tokens(a) + Tokens(b)
  {
    var s := a + [c] + b;
    assert s[..|a|] == a;
    assert s[|a| + 1..] == b;
    TokensSplitAt(s, |a|);
  }

  lemma {:induction false} TokensSplitAt(s: string, i: nat)
    requires i < |s| && IsSpace(s[i])
    ensures Tokens(s) == Tokens(s[..i]) + Tokens(s[i + 1..])
    decreases i
  {
    if i == 0 {
      TokensSpaceStep(s);
      assert s[..i] == [];
    } else if IsSpace(s[0]) {
      TokensSplitAt(s[1..], i - 1);
      TokensSplitSkip(s, i);
    } else {
      var m := TokenLen(s);
      NoSpaceBefore(s, m, i);
      if m < i {
        TokensSplitAt(s[m..], i - m);
      }
      TokensSplitWord(s, i, m);
    }
  }

  /** Cutting a slice at `m` and at `i` in either order gives the same
      pieces. */
  lemma Slices(s: string, m: nat, i: nat)
    requires m <= i < |s|
    ensures s[m..][..i - m] == s[..i][m..]
    ensures s[m..][i - m + 1..] == s[i + 1..]
    ensures s[..i][..m] == s[..m]
  {
  }

  lemma TokensSplitSkip(s: string, i: nat)
    requires 0 < i < |s| && IsSpace(s[i]) && IsSpace(s[0])
    requires Tokens(s[1..]) == Tokens(s[1..][..i - 1]) + Tokens(s[1..][i..])
    ensures Tokens(s) == Tokens(s[..i]) + Tokens(s[i + 1..])
  {
    TokensSpaceStep(s);
    TokensSpaceStep(s[..i]);
    Slices(s, 1, i);
    assert s[1..][i..] == s[i + 1..];
  }

  lemma TokensSplitWord(s: string, i: nat, m: nat)
    requires 0 < i < |s| && IsSpace(s[i]) && !IsSpace(s[0])
    requires 0 < m <= i && NoSpace(s[..m]) && (m < |s| ==> IsSpace(s[m]))
    requires m < i ==> Tokens(s[m..]) == Tokens(s[m..][..i - m]) + Tokens(s[m..][i - m + 1..])
    ensures Tokens(s) == Tokens(s[..i]) + Tokens(s[i + 1..])
  {
    Slices(s, m, i);
    TokensWordStep(s, m);
    TokensWordStep(s[..i], m);
    if m == i {
      TokensSplitWordEnd(s, i);
    } else {
      TokensSplitWordMid(s, i, m);
    }
  }

  lemma TokensSplitWordEnd(s: string, i: nat)
    requires 0 < i < |s| && IsSpace(s[i])
    requires Tokens(s) == [s[..i]] + Tokens(s[i..])
    requires Tokens(s[..i]) == [s[..i][..i]] + Tokens(s[..i][i..])
    ensures Tokens(s) == Tokens(s[..i]) + Tokens(s[i + 1..])
  {
    TokensSpaceStep(s[i..]);
    assert s[i..][1..] == s[i + 1..];
    assert s[..i][..i] == s[..i];
    assert s[..i][i..] == [];
  }

  lemma TokensSplitWordMid(s: string, i: nat, m: nat)
    requires 0 < m < i < |s|
    requires Tokens(s[m..]) == Tokens(s[m..][..i - m]) + Tokens(s[m..][i - m + 1..])
    requires Tokens(s) == [s[..m]] + Tokens(s[m..])
    requires Tokens(s[..i]) == [s[..i][..m]] + Tokens(s[..i][m..])
    ensures Tokens(s) == Tokens(s[..i]) + Tokens(s[i + 1..])
  {
    Slices(s, m, i);
    ConsAppend(s[..m], Tokens(s[..i][m..]), Tokens(s[i + 1..]));
  }

  lemma ConsAppend<T>(x: T, p: seq<T>, q: seq<T>)
    ensures [x] + (p + q) == ([x] + p) + q
  {
  }

  lemma TokensSpaceStep(s: string)
    requires |s| > 0 && IsSpace(s[0])
    ensures Tokens(s) == Tokens(s[1..])
  {
  }

  lemma TokensWordStep(s: string, m: nat)
    requires 0 < m <= |s| && NoSpace(s[..m])
    requires m < |s| ==> IsSpace(s[m])
    ensures Tokens(s) == [s[..m]] + Tokens(s[m..])
  {
    assert s[0] == s[..m][0];
    TokenLenUnique(s, m);
  }

  predicate StartsWith(s: string, prefix: string)
  {
    |prefix| <= |s| && s[..|prefix|] == prefix
  }

  /** Python's `pat in s`: `pat` occurs at some position of `s`. */
  function Contains(s: string, pat: string): (b: bool)
    ensures b <==> exists i :: 0 <= i <= |s| && StartsWith(s[i..], pat)
    decreases |s|
  {
    if StartsWith(s, pat) then
      assert s[0..] == s;
      true
    else if |s| == 0 then
      false
    else
      var b := Contains(s[1..], pat);
      assert forall i :: 1 <= i <= |s| ==> s[i..] == s[1..][i - 1..];
      if b then
        var i :| 0 <= i <= |s| - 1 && StartsWith(s[1..][i..], pat);
        assert s[1..][i..] == s[i + 1..];
        true
      else
        false
  }

  /** Python's `s.count(pat)`: the number of non-overlapping occurrences
      of `pat`, found scanning left to right. */
  function Occurrences(s: string, pat: string): nat
    requires |pat| > 0
    decreases |s|
  {
    if |s| == 0 then 0
    else if StartsWith(s, pat) then 1 + Occurrences(s[|pat|..], pat)
    else Occurrences(s[1..], pat)
  }

  /** Python's `s.replace(pat, "")`: occurrences are removed left to right,
      without overlap. Exactly the counted occurrences go, so the result is
      `|pat|` characters shorter per occurrence, and it is the input itself
      exactly when `pat` does not occur in it. */
  function RemoveAll(s: string, pat: string): (r: string)
    requires |pat| > 0
    ensures |r| <= |s|
    ensures |r| == |s| - |pat| * Occurrences(s, pat)
    ensures r == s <==> !Contains(s, pat)
    decreases |s|
  {
    if |s| == 0 then ""
    else if StartsWith(s, pat) then
      var r := RemoveAll(s[|pat|..], pat);
      assert |pat| * (1 + Occurrences(s[|pat|..], pat)) == |pat| + |pat| * Occurrences(s[|pat|..], pat);
      r
    else
      var r := [s[0]] + RemoveAll(s[1..], pat);
      assert s == [s[0]] + s[1..];
      assert Contains(s, pat) <==> Contains(s[1..], pat);
      r
  }

  /** A leading occurrence is removed and scanning resumes after it. */
  lemma RemoveAllPrefix(pat: string, t: string)
    requires |pat| > 0
    ensures RemoveAll(pat + t, pat) == RemoveAll(t, pat)
  {
    assert (pat + t)[..|pat|] == pat;
    assert (pat + t)[|pat|..] == t;
  }

  /** No occurrence of `pat` starts in the first `n` positions of `s`. */
  predicate NoMatchBefore(s: string, pat: string, n: int)
  {
    forall i :: 0 <= i < n && i <= |s| ==> !StartsWith(s[i..], pat)
  }

  /** Characters before the first occurrence survive unchanged, the first
      occurrence goes, and the scan resumes after it. With the no-op case
      of `RemoveAll`'s contract this fixes the result of every input. */
  lemma {:induction false} RemoveAllFirst(u: string, pat: string, t: string)
    requires |pat| > 0 && NoMatchBefore(u + pat + t, pat, |u|)
    ensures RemoveAll(u + pat + t, pat) == u + RemoveAll(t, pat)
    decreases |u|
  {
    if |u| == 0 {
      assert u + pat + t == pat + t;
      RemoveAllPrefix(pat, t);
    } else {
      RemoveAllFirstStep(u, pat, t);
      RemoveAllFirst(u[1..], pat, t);
      ConsAppend(u[0], u[1..], RemoveAll(t, pat));
      assert [u[0]] + u[1..] == u;
    }
  }

  lemma RemoveAllFirstStep(u: string, pat: string, t: string)
    requires |pat| > 0 && |u| > 0 && NoMatchBefore(u + pat + t, pat, |u|)
    ensures RemoveAll(u + pat + t, pat) == [u[0]] + RemoveAll(u[1..] + pat + t, pat)
    ensures NoMatchBefore(u[1..] + pat + t, pat, |u| - 1)
  {
    var s := u + pat + t;
    assert s[0..] == s;
    RemoveAllSkip(s, pat);
    assert s[1..] == u[1..] + pat + t;
    NoMatchShift(s, pat, |u|);
  }

  /** A head character that starts no occurrence is kept. */
  lemma RemoveAllSkip(s: string, pat: string)
    requires |pat| > 0 && |s| > 0 && !StartsWith(s, pat)
    ensures RemoveAll(s, pat) == [s[0]] + RemoveAll(s[1..], pat)
  {
  }

  lemma NoMatchShift(s: string, pat: string, n: int)
    requires 0 < n <= |s| && NoMatchBefore(s, pat, n)
    ensures NoMatchBefore(s[1..], pat, n - 1)
  {
    forall i | 0 <= i < n - 1 && i <= |s| - 1
      ensures !StartsWith(s[1..][i..], pat)
    {
      assert s[1..][i..] == s[i + 1..];
    }
  }
}

=== FILE: web_app.dfy ===
/**
  `analyze_lineage` of app.py:30-128, the web entry point: the resolver's
  triple plus the visualization graph built from it.
 */
module WebApp {
  import opened Collections
  import Graph
  import Resolver
  import Classifier
  import LineageScript

  datatype Analysis = Analysis(
    sources: seq<string>,
    targets: seq<string>,
    intermediates: seq<string>,
    nodes: seq<Graph.Node>,
    links: seq<Graph.Link>)

  function AnalyzeLineage(sql: string, parserSources: seq<string>, parserTargets: seq<string>): Analysis
  {
    var l := Resolver.Resolve(sql, parserSources, parserTargets);
    Analysis(
      l.sources, l.targets, l.intermediates,
      Graph.Nodes(l.sources, l.targets, l.intermediates),
      Graph.Links(l.sources, l.intermediates, l.targets))
  }

  /** The web result's first three fields are the command-line triple. */
  lemma AgreesWithScript(sql: string, parserSources: seq<string>, parserTargets: seq<string>)
    ensures var a := AnalyzeLineage(sql, parserSources, parserTargets);
            var l := LineageScript.AnalyzeLineage(sql, parserSources, parserTargets);
            a.sources == l.sources && a.targets == l.targets && a.intermediates == l.intermediates
  {
  }

  /** Every table of the result appears once among the nodes and nothing
      else does; sources are group 1, other targets group 2, and since every
      intermediate is also a target, group 3 never occurs. */
  lemma NodesOfResult(sql: string, parserSources: seq<string>, parserTargets: seq<string>)
    ensures var a := AnalyzeLineage(sql, parserSources, parserTargets);
            var ids := Graph.NodeIds(a.nodes);
            && NoDups(ids)
            && (forall x :: x in ids ==> x in a.sources || x in a.targets || x in a.intermediates)
            && (forall x :: x in a.sources || x in a.targets || x in a.intermediates ==> x in ids)
            && (forall n :: n in a.nodes ==>
                  && (n.group == 1 <==> n.id in a.sources)
                  && (n.group == 2 <==> n.id !in a.sources && n.id in a.targets))
            && (forall n :: n in a.nodes ==> n.group != 3)
  {
    var l := Resolver.Resolve(sql, parserSources, parserTargets);
    Resolver.CreateTablesAreCreatedSet(sql);
    Resolver.IntermediatesAreTargets(Classifier.CreateTables(sql), parserSources, parserTargets);
    Graph.NoGroupThree(l.sources, l.targets, l.intermediates);
  }

  /** With intermediates the links fan out source -> intermediate ->
      target, |S|*|I| + |I|*|T| of them; without, they join every source to
      every target, |S|*|T| of them. */
  lemma LinksOfResult(sql: string, parserSources: seq<string>, parserTargets: seq<string>)
    ensures var a := AnalyzeLineage(sql, parserSources, parserTargets);
            && (|a.intermediates| > 0 ==>
                  && a.links == Graph.Cross(a.sources, a.intermediates) + Graph.Cross(a.intermediates, a.targets)
                  && |a.links| == |a.sources| * |a.intermediates| + |a.intermediates| * |a.targets|)
            && (|a.intermediates| == 0 ==>
                  && a.links == Graph.Cross(a.sources, a.targets)
                  && |a.links| == |a.sources| * |a.targets|)
  {
    var l := Resolver.Resolve(sql, parserSources, parserTargets);
    Graph.LinksShape(l.sources, l.intermediates, l.targets);
  }
}
